=== FILE: README.md ===
# SLA raster, option store and support-check contracts in Dafny

This project models three small, sequential parts of a resin (SLA) print
preparation pipeline and proves properties about them.

- **The SLA raster** (`raster.dfy`, `raster_path.dfy`, `raster_save.dfy`, `decimal.dfy`).
  A raster is either *empty* or *ready*. A ready raster holds a resolution, pixel dimensions, an output format, a
  mirroring/gamma transformation and an 8-bit grey buffer of `width * height` pixels stored row by row.
  The model covers `reset`, `clear`, `resolution`, `pixel_dimensions`, `read_pixel`, `draw` up to the
  rasteriser, and both forms of `save`. It includes the PNG format's one-time Y-mirror correction and the
  choice of gamma curve. RAW output is a binary Netpbm greymap: the ASCII header `P5 <w> <h> 255 ` and then
  the pixels. A reader for that format is defined, and saving and then reading is proved to give back the
  resolution and the pixels.
- **The dynamic option store** (`config.dfy`, `lex_order.dfy`). A configuration maps option keys to values of
  a closed set of option kinds (float, floats, int, ints, string, strings, float-or-percent, point, points,
  bool, bools, enum). A shared registry of definitions names each key's kind. A dynamic configuration creates
  options on demand. A static configuration answers from a fixed field table. The model covers `option`,
  `has`, `keys`, `serialize`, `set_deserialize`, `get_abs_value` and `apply`. Key lists come out in the
  ascending order of an ordered map. `apply` is modelled with its exceptions: a throw leaves the keys visited
  before it already applied.
- **Combinatorial contracts of the SLA tests** (`pair_hash.dfy`, `mirror_table.dfy`, `tree_integrity.dfy`).
  These are the symmetric pillar-pair key and the uniqueness check run over it, the five-location mirroring
  table, and the link/bridge counter part of the support-tree integrity check.

Foreign code becomes a function parameter: the AGG scanline renderer (`Renderer`), the miniz PNG encoder
(`PngEncoder`) and the text encoding of option values (`Codec`). Floating-point quantities are `real`.

## Model

| member | source | states |
|---|---|---|
| SlaRaster.ResetEmpty | src/libslic3r/SLA/SLARaster.cpp:208-225 | A default-constructed or argument-less reset raster is empty and reports resolution `{0,0}` and pixel dimensions `{0,0}` |
| SlaRaster.Reset | src/libslic3r/SLA/SLARaster.cpp:80-105 | After `reset(r, pd, fmt, tr)` the raster is non-empty, reports `r` and `pd`, has `w*h` black pixels, PNG toggles `mirror_y` once while RAW keeps it, and `gamma > 0` selects the power curve, otherwise threshold 0.5 |
| SlaRaster.PngCorrectionAppliedOnce | src/libslic3r/SLA/SLARaster.cpp:99-102 | Feeding the stored PNG transformation back into `reset` cancels the Y correction, so it must not be applied twice; RAW stores the transformation unchanged |
| SlaRaster.Clear | src/libslic3r/SLA/SLARaster.cpp:227-231 | `clear` blackens every pixel, keeps the buffer length and changes nothing else |
| SlaRaster.ClearIdempotent | src/libslic3r/SLA/SLARaster.cpp:130-132 | Clearing twice is the same as clearing once |
| SlaRaster.ReadAfterResetIsBlack | src/libslic3r/SLA/SLARaster.cpp:104 | Right after `reset`, and after a `clear`, every in-range pixel reads 0 |
| SlaRaster.ReadPixel | src/libslic3r/SLA/SLARaster.cpp:333-339 | `read_pixel(x, y)` is the byte at `y*w + x`, and that index is inside the buffer whenever `x < w` and `y < h` |
| SlaRaster.PixelIndexBijective | src/libslic3r/SLA/SLARaster.cpp:337 | Row-major addressing is a bijection between in-range pixels and buffer cells |
| RasterPath.ToPath | src/libslic3r/SLA/SLARaster.cpp:167-179 | The path of an n-point ring is a move followed by n line commands: n+1 vertices, the last equal to the first, vertex i being point i scaled to pixels |
| RasterPath.DrawPathsMirrorUniform | src/libslic3r/SLA/SLARaster.cpp:113-125 | The contour and every hole become closed paths placed by one and the same transformation (scale, then flip each axis whose mirror flag is set) |
| RasterPath.FlipInvolutive | src/libslic3r/SLA/SLARaster.cpp:71-77 | Flipping about the raster's extent twice restores a path, and X and Y flips commute |
| RasterPath.Draw | src/libslic3r/SLA/SLARaster.cpp:233-243 | `draw` hands the mirrored, closed paths and the gamma curve to the renderer, changes only the buffer, and keeps the buffer invariant when the renderer does |
| RasterSave.SaveBytes | src/libslic3r/SLA/SLARaster.cpp:286-326 | RAW output is the `P5 w h 255 ` header followed by the buffer unchanged, of length header plus `w*h`; PNG output is exactly what the encoder produced, and no bytes when it failed |
| RasterSave.SaveDefault | src/libslic3r/SLA/SLARaster.cpp:328-331 | `save()` is `save(fmt)` with the format the raster was reset with; for RAW the output reads back as the raster's resolution and pixels |
| RasterSave.SaveToStream | src/libslic3r/SLA/SLARaster.cpp:245-279 | A stream that is not good is left untouched, a failed PNG encoding writes nothing, and otherwise bytes are only appended |
| RasterSave.SaveDefaultToStream | src/libslic3r/SLA/SLARaster.cpp:281-284 | Saving to a stream in the raster's own format appends exactly what the byte-returning `save` returns |
| RasterSave.StreamAgreesWithBytes | src/libslic3r/SLA/SLARaster.cpp:268-277 | The stream form and the byte form of `save` write the same bytes to a good stream |
| RasterSave.RawRoundTrip | src/libslic3r/SLA/SLARaster.cpp:307-321 | Reading back a RAW save gives the raster's width, height and pixel buffer, the payload being exactly `w*h` bytes |
| Decimal.ParseDec | src/libslic3r/SLA/SLARaster.cpp:308-310 | A width or height printed in decimal and followed by a space reads back as the same number |
| SlicerConfig.GetOption | xs/src/Config.cpp:199-241 | A present key yields its stored option and leaves the store unchanged whatever `create` is; an absent key without `create` yields null and no change; with `create` a dynamic store inserts an option of its definition's kind and touches no other key, or throws `Unknown option type` for an unhandled kind before inserting anything |
| SlicerConfig.NewOption | xs/src/Config.cpp:203-233 | A created option's kind is its definition's kind, an enum refers to its definition's value names, and only an unhandled kind gives nothing |
| SlicerConfig.Has | xs/src/Config.cpp:5-8 | `has(k)` holds exactly when `option(k, false)` finds an option, that is when the key is stored |
| SlicerConfig.Keys | xs/src/Config.cpp:243-255 | Dynamic keys are exactly the stored keys; static keys are exactly the defined keys whose field lookup is not null; both in strictly ascending order |
| LexOrder.SortedKeys | xs/src/Config.cpp:245-246 | Walking an ordered map lists every key once, in strictly ascending order |
| LexOrder.Filter | xs/src/Config.cpp:251-253 | Keeping only the keys with a non-null option preserves order and keeps exactly those keys |
| SlicerConfig.Serialize | xs/src/Config.cpp:29-34 | `serialize(k)` looks the key up with `option(k)`, which on a held key finds the stored option without changing the store, and returns that option's encoding |
| SlicerConfig.SetDeserialize | xs/src/Config.cpp:36-41 | `set_deserialize(k, s)` leaves option k holding `deserialize(old option, s)`, of the same kind when the codec keeps kinds, and changes no other option |
| SlicerConfig.SetThenSerialize | xs/src/Config.cpp:29-41 | For a codec whose encoding gives back every text it parsed, `serialize(k)` after `set_deserialize(k, s)` returns `s`, and the key is still held |
| SlicerConfig.Apply | xs/src/Config.cpp:10-27 | `apply` completes exactly when no key of `other` fails. Each key of `other` then holds `deserialize(serialize(other value))` and keys not in `other` are untouched. A key that cannot be obtained throws, unless it is absent from a static store with `ignore` set, when it is skipped. A throw leaves exactly the keys before it applied |
| SlicerConfig.ApplySingleIsSetDeserialize | xs/src/Config.cpp:24-25 | Applying a one-option configuration to a store that holds that option equals `set_deserialize` with the other's `serialize` |
| SlicerConfig.FloatView | xs/src/Config.cpp:56-57 | The float view of an option exists exactly for a plain float option and is its value; a float-or-percent option, like every other kind and a missing key, gives null |
| SlicerConfig.GetAbsValue | xs/src/Config.cpp:43-62 | A non-percentage gives its raw value. A percentage gives `base * value / 100` with `base` the `ratio_over` option, and throws `ratio_over option not found` when that option is missing or is not a plain float, a float-or-percent base included |
| SlicerConfig.AbsValueReadsOnlyBase | xs/src/Config.cpp:55-61 | The absolute value depends only on the option itself and its `ratio_over` option |
| PillarPairHash.PairHashSymmetric | tests/sla_print/sla_print_tests_main.cpp:291-294 | `pairhash(i, j) == pairhash(j, i)` |
| PillarPairHash.PairHashInjective | tests/sla_print/sla_print_tests_main.cpp:296-302 | Equal keys imply the same unordered pair |
| PillarPairHash.PairHashFitsU32 | tests/sla_print/sla_print_tests_main.cpp:289-290 | For indices below 1000 the key is at most 500499, so it fits an unsigned 32-bit integer |
| PillarPairHash.CheckPairHash | tests/sla_print/sla_print_tests_main.cpp:286-305 | The uniqueness check over all index pairs below any bound never fails |
| MirrorTable.RowsArePermutations | tests/sla_print/sla_print_tests_main.cpp:427-430 | Every row of the mirroring table is a permutation of the five locations |
| MirrorTable.RowAlgebra | tests/sla_print/sla_print_tests_main.cpp:427-433 | The centre always maps to itself, each row is an involution, and the XY row is the X row composed with the Y row in either order |
| MirrorTable.TableMatchesPathFlips | tests/sla_print/sla_print_tests_main.cpp:410-434 | With row index `mirror_x*2 + mirror_y` and the locations placed as the test places them (first pixel, centre, last pixel, pixel size `extent/(res-1)`), the raster's own X/Y path flips move location `k` exactly onto the table's location along an unmirrored axis and exactly one pixel past it along a mirrored one |
| MirrorTable.TableNamesNearestLocation | tests/sla_print/sla_print_tests_main.cpp:408-451 | On a raster of at least nine pixels each way the flipped location lies within one pixel of the table's location and at least three pixels, along some axis, from every other location, so the test's box, reaching two pixels either side of the vertex, covers the table's probe and no other |
| SupportTreeIntegrity.CheckPillarsAsWritten | tests/sla_print/sla_print_tests_main.cpp:126-136 | The check as written passes exactly when every pillar meets the written link test (with the two-link test in the `else` branch) and `links ≤ pillar_cascade_neighbors`, `bridges ≤ max_bridges_on_pillar` |
| SupportTreeIntegrity.DualTestDeadAsWritten | tests/sla_print/sla_print_tests_main.cpp:130-131 | When the dual limit is not below the solo limit, the written two-link test never fires |
| SupportTreeIntegrity.AsWrittenAdmitsSingleLinkTallPillar | tests/sla_print/sla_print_tests_main.cpp:130-131 | A ground pillar of 40 mm with one link passes the written check under limits 15 mm / 35 mm though it needs two links |
| SupportTreeIntegrity.CheckPillars | tests/sla_print/sla_print_tests_main.cpp:126-136 | The corrected check passes exactly when every ground pillar above the solo limit has a link, every one above the dual limit has two, and the counter limits hold |

## Left out

- The AGG scanline rasteriser, anti-aliased coverage and the numeric shape of the gamma curves (`SLARaster.cpp:107-128`). They are a foreign library, so `draw` passes its paths to a `Renderer` parameter.
- The miniz PNG encoder (`SLARaster.cpp:251-266`, `293-305`). It is a foreign call, modelled as a `PngEncoder` parameter whose empty result means no bytes. Its `int(...)` casts of the width and height are not modelled.
- The floating-point round trip `SCALING_FACTOR / (SCALING_FACTOR / pd)` (`SLARaster.cpp:85`, `139-143`). The model stores the pixel dimensions as reals, so `pixel_dimensions` returns them exactly.
- SlaRaster.Reset: assumes `width_px * height_px` (`SLARaster.cpp:86`), the `unsigned` casts of width and height (`SLARaster.cpp:88-89`), the row stride `int(width_px * num_components)` (`SLARaster.cpp:90`) and the pixel offset `y * width_px + x` (`SLARaster.cpp:337`) all fit their fixed-width types. The model computes them on unbounded naturals, so the buffer always holds exactly `w*h` pixels and wrap-around is not modelled.
- RasterPath.ToPath: requires non-zero pixel dimensions. With a zero dimension the source's scale is an IEEE infinity, which reals cannot express. It also requires every ring to be non-empty, because the source dereferences the ring's first iterator `poly.begin()` (`SLARaster.cpp:171-172`), which is undefined behaviour for an empty one.
- RasterPath.Draw: says nothing about pixel values, because they come from the foreign renderer.
- `Raster::empty()`, the `reset` overload taking a mirroring array, and the move constructor live in `SLARaster.hpp`. SLARaster.hpp is not part of this model; emptiness is `SlaRaster.IsEmpty`.
- The Perl XS bridge `as_hash`/`get`/`set` (`Config.cpp:64-190`). It is interpreter plumbing.
- The `DynamicConfig` destructor (`Config.cpp:192-197`). It only frees memory.
- The bodies of each option kind's `serialize`/`deserialize`. They are not in the modelled file, so they are the `Codec` parameter.
- Config.hpp is not part of this model. Seven of its details are therefore assumptions:
  - the default value of each created option kind;
  - that `ConfigOptionFloatOrPercent` does not derive from `ConfigOptionFloat`, so the `dynamic_cast` in `get_abs_value` rejects it as a base. The XS bridge's `get` and `set` (`Config.cpp:82-83`, `134-135`) test for a plain float before a float-or-percent. Under inheritance they would read a percentage as a bare number and store it without touching `percent`, so the file is written for classes that are not related;
  - that `option(key)` without a second argument means `option(key, false)`. This covers the calls at `Config.cpp:25`, `31`, `38`, `51`, `56` and `252`. In particular, `get_abs_value` never creates its `ratio_over` option: a defined but absent base throws instead of reading a freshly created zero;
  - that the `type` of a default-constructed `ConfigOptionDef` matches none of the handled tags, so the `else` at `Config.cpp:231-232` throws for an unknown key instead of creating an option of some handled kind;
  - that a static configuration answers `option` from a fixed field table whatever `create` says;
  - that the enum type tags are as named;
  - that `t_options_map` and `t_optiondef_map` are ordered maps (`std::map`) keyed by `std::string`, which is where the ascending order of `keys()` comes from.
- The registry lookup `(*def)[key]` default-constructs a definition for an unknown key. The model reads that definition as an unhandled kind, so creation throws. The model does not insert it into the registry, because the registry is immutable here.
- SlicerConfig.GetAbsValue: computes `base * value / 100` in reals, not IEEE doubles.
- The five `assert`s of `serialize`, `set_deserialize` and `get_abs_value` (`Config.cpp:32`, `39`, `46`, `48`, `52`) become `requires` clauses.
- Support-tree building, pad generation, mesh validity, slicing, OBJ loading and the test scaffolding. They need mesh and geometry libraries.
- The bridge slope and length checks (`sla_print_tests_main.cpp:138-157`). They use floating-point `acos`/`cos`.
- The definition of `pairhash` lives in SLASupportTreeBuilder.hpp, which is not part of this model. `PairHash` is the triangular pairing `hi*(hi+1)/2 + lo` on `(min, max)`, and its properties are proved for all naturals.
- RasterSave.StreamAgreesWithBytes: holds only for a stream with default format flags and the classic locale, whose writes all succeed. The stream form prints the width and height with `operator<<` (`SLARaster.cpp:269-272`), which honours the stream's base, width, fill and digit-grouping locale, while the byte form uses `std::to_string` (`SLARaster.cpp:308-310`). The model's `Stream` has no format state and no failing writes, so `SaveToStream` keeps the stream's `good` flag.
- MirrorTable.TableMatchesPathFlips: the path flip reflects about the raster's width `w`, while the test's locations span pixels `0 .. w-1`, so a mirrored location lands one pixel past the table's. The test tolerates this through its 4-pixel box (`sla_print_tests_main.cpp:416-419`). The lemma states the offset exactly instead of claiming exact agreement. It takes the bounding box to start at the origin, as the test's reads at `floor(corner / pixel size)` do. The lemma picks the table row from the flags the raster stores, while the test picks it from the flags it requests through the `reset(res, pixdim, mirroring)` overload; the two agree only if that overload, which lives in SLARaster.hpp, stores the requested flags unchanged. For a PNG raster, `reset` stores `mirror_y` toggled.
- The draw-and-read loop of the mirroring test (`sla_print_tests_main.cpp:436-453`). It needs the renderer, so only the table and its agreement with the raster's path flips are modelled.

## Findings

| source | as written | input that shows it | evidently intended | confidence | as-written member | corrected member |
|---|---|---|---|---|---|---|
| tests/sla_print/sla_print_tests_main.cpp:130-131 | `if (h > H1) links ≥ 1; else if (h > H2) links ≥ 2` — the two-link test only runs for `H2 < h ≤ H1`, so it is dead whenever `H2 ≥ H1` | limits `H1 = 15`, `H2 = 35`; a pillar on the ground with `h = 40`, `links = 1` passes | independent tests: `h > H1 ⇒ links ≥ 1` and `h > H2 ⇒ links ≥ 2` | medium, not executed | SupportTreeIntegrity.CheckPillarsAsWritten, SupportTreeIntegrity.AsWrittenAdmitsSingleLinkTallPillar | SupportTreeIntegrity.CheckPillars |

=== FILE: arith.dfy ===
/** Facts about natural-number products shared by the pixel addressing
    and the pillar pairing. */
module Arithmetic {
  /** Multiplication is monotone in both factors. */
  lemma MulLeMul(a: nat, b: nat, c: nat, d: nat)
    requires a <= b && c <= d
    ensures a * c <= b * d
  {
  }
}

=== FILE: config.dfy ===
/** The option store: a map from option key to a value of one of a closed
    set of option kinds, and a registry of definitions that names each
    key's kind. A dynamic configuration creates options on demand; a static
    configuration has a fixed table of fields. Text encoding of option
    values is a foreign pair of functions (`Codec`). */
module SlicerConfig {
  import opened Wrappers
  import opened LexOrder

  datatype Pointf = Pointf(x: real, y: real)

  /** The type tag of a definition. `Unhandled` stands for any tag the
      creation switch has no case for, including the tag of a definition
      that the registry lookup default-constructs for an unknown key. */
  datatype OptionType =
    | CoFloat | CoFloats | CoInt | CoInts | CoString | CoStrings
    | CoFloatOrPercent | CoPoint | CoPoints | CoBool | CoBools | CoEnum
    | Unhandled(tag: nat)

  /** An option value, one variant per option kind. */
  datatype ConfigOption =
    | FloatOpt(value: real)
    | FloatsOpt(floats: seq<real>)
    | IntOpt(intValue: int)
    | IntsOpt(ints: seq<int>)
    | StringOpt(text: string)
    | StringsOpt(texts: seq<string>)
    | FloatOrPercentOpt(value: real, percent: bool)
    | PointOpt(point: Pointf)
    | PointsOpt(points: seq<Pointf>)
    | BoolOpt(flag: bool)
    | BoolsOpt(flags: seq<bool>)
    | EnumOpt(enumValue: int, keysMap: map<string, int>)

  function KindOf(o: ConfigOption): OptionType {
    match o
    case FloatOpt(_) => CoFloat
    case FloatsOpt(_) => CoFloats
    case IntOpt(_) => CoInt
    case IntsOpt(_) => CoInts
    case StringOpt(_) => CoString
    case StringsOpt(_) => CoStrings
    case FloatOrPercentOpt(_, _) => CoFloatOrPercent
    case PointOpt(_) => CoPoint
    case PointsOpt(_) => CoPoints
    case BoolOpt(_) => CoBool
    case BoolsOpt(_) => CoBools
    case EnumOpt(_, _) => CoEnum
  }

  /** A definition: its kind, the key a percentage is taken of, and the names of an enum's values. */
  datatype OptionDef = OptionDef(kind: OptionType, ratioOver: string, enumKeysMap: map<string, int>)

  type Defs = map<string, OptionDef>

  /** What the registry yields for a key it does not define. */
  const UndefinedDef: OptionDef := OptionDef(Unhandled(0), "", map[])

  function DefOf(defs: Defs, key: string): OptionDef {
    if key in defs then defs[key] else UndefinedDef
  }

  /** A freshly created option of the definition's kind, or nothing when
      the kind has no case in the creation switch. An enum option refers
      to its definition's value names. */
  function NewOption(d: OptionDef): (r: Option<ConfigOption>)
    ensures r.Some? <==> !d.kind.Unhandled?
    ensures r.Some? ==> KindOf(r.value) == d.kind
    ensures r.Some? && d.kind == CoEnum ==> r.value.keysMap == d.enumKeysMap
  {
    match d.kind
    case CoFloat => Some(FloatOpt(0.0))
    case CoFloats => Some(FloatsOpt([]))
    case CoInt => Some(IntOpt(0))
    case CoInts => Some(IntsOpt([]))
    case CoString => Some(StringOpt(""))
    case CoStrings => Some(StringsOpt([]))
    case CoFloatOrPercent => Some(FloatOrPercentOpt(0.0, false))
    case CoPoint => Some(PointOpt(Pointf(0.0, 0.0)))
    case CoPoints => Some(PointsOpt([]))
    case CoBool => Some(BoolOpt(false))
    case CoBools => Some(BoolsOpt([]))
    case CoEnum => Some(EnumOpt(0, d.enumKeysMap))
    case Unhandled(_) => None
  }

  /** A configuration shares its definition registry. */
  datatype Config =
    | Dynamic(defs: Defs, options: map<string, ConfigOption>)
    | Static(defs: Defs, fields: map<string, ConfigOption>)

  /** The options a configuration currently holds. */
  function Stored(c: Config): map<string, ConfigOption> {
    if c.Dynamic? then c.options else c.fields
  }

  /** Overwrites the value of an option the configuration holds. */
  function WithStored(c: Config, key: string, o: ConfigOption): (c': Config)
    requires key in Stored(c)
    ensures c'.defs == c.defs && c'.Dynamic? == c.Dynamic?
    ensures Stored(c') == Stored(c)[key := o]
  {
    if c.Dynamic? then c.(options := c.options[key := o]) else c.(fields := c.fields[key := o])
  }

  /** `c` and `c'` share registry and variant and hold the same options, except possibly at `key`. */
  ghost predicate SameExcept(c: Config, c': Config, key: string) {
    && c'.defs == c.defs && c'.Dynamic? == c.Dynamic?
    && (forall k :: k != key ==> (k in Stored(c') <==> k in Stored(c)))
    && (forall k :: k != key && k in Stored(c) ==> Stored(c')[k] == Stored(c)[k])
  }

  /** What `option(key, create)` returns: the option or null, and the configuration after the call. */
  datatype Lookup = Lookup(found: Option<ConfigOption>, config: Config)

  const UnknownType: string := "Unknown option type"
  const NonExistent: string := "Attempt to apply non-existent option"
  const RatioOverMissing: string := "ratio_over option not found"

  /** `option(key, create)`. A dynamic configuration creates a missing
      option when asked to, with the kind its definition names; a static
      configuration answers from its field table whatever `create` says. */
  function GetOption(c: Config, key: string, create: bool): (r: Result<Lookup>)
    ensures key in Stored(c) ==> r == Ok(Lookup(Some(Stored(c)[key]), c))
    ensures r.Err? <==> c.Dynamic? && key !in Stored(c) && create && DefOf(c.defs, key).kind.Unhandled?
    ensures r.Err? ==> r.message == UnknownType
    ensures r.Ok? && r.value.found.None? <==> key !in Stored(c) && (!create || c.Static?)
    ensures r.Ok? && r.value.found.None? ==> r.value.config == c
    ensures r.Ok? ==> SameExcept(c, r.value.config, key)
    ensures r.Ok? && r.value.found.Some? ==>
      key in Stored(r.value.config) && Stored(r.value.config)[key] == r.value.found.value
    ensures r.Ok? && r.value.found.Some? && key !in Stored(c) ==>
      c.Dynamic? && create && KindOf(r.value.found.value) == DefOf(c.defs, key).kind
  {
    if c.Dynamic? then
      if key !in c.options then
        if create then
          match NewOption(DefOf(c.defs, key))
          case None => Err(UnknownType)
          case Some(o) => Ok(Lookup(Some(o), c.(options := c.options[key := o])))
        else
          Ok(Lookup(None, c))
      else
        Ok(Lookup(Some(c.options[key]), c))
    else
      Ok(Lookup(if key in c.fields then Some(c.fields[key]) else None, c))
  }

  /** `has(key)`: whether `option(key, false)` finds an option. */
  function Has(c: Config, key: string): (r: bool)
    ensures r <==> key in Stored(c)
  {
    var lookup := GetOption(c, key, false);
    lookup.Ok? && lookup.value.found.Some?
  }

  /** `keys()`. Dynamic: the stored keys. Static: the defined keys whose
      field lookup is not null. Both walk an ordered map, so the list is
      in ascending key order without repetition. */
  function Keys(c: Config): (r: seq<string>)
    ensures StrictlySorted(r)
    ensures c.Dynamic? ==> forall k :: k in r <==> k in c.options
    ensures c.Static? ==> forall k :: k in r <==> k in c.defs && k in c.fields
  {
    if c.Dynamic? then SortedKeys(c.options.Keys)
    else Filter(SortedKeys(c.defs.Keys), c.fields.Keys)
  }

  /** The text encoding of option values; its bodies are not modelled. */
  datatype Codec = Codec(serialize: ConfigOption -> string, deserialize: (ConfigOption, string) -> ConfigOption)

  /** `deserialize` works on an option in place, so it keeps the option's
      kind; a codec that honours this is kind-preserving. */
  ghost predicate KindPreserving(codec: Codec) {
    forall o, t :: KindOf(codec.deserialize(o, t)) == KindOf(o)
  }

  /** `serialize(key)`: the text of the option `option(key)` finds. */
  function Serialize(c: Config, key: string, codec: Codec): (s: string)
    requires Has(c, key)
    ensures GetOption(c, key, false) == Ok(Lookup(Some(Stored(c)[key]), c))
    ensures s == codec.serialize(Stored(c)[key])
  {
    var opt := GetOption(c, key, false).value.found.value;
    codec.serialize(opt)
  }

  /** `set_deserialize(key, text)`: the held option reads `text`; no other option changes. */
  function SetDeserialize(c: Config, key: string, text: string, codec: Codec): (c': Config)
    requires Has(c, key)
    ensures SameExcept(c, c', key)
    ensures key in Stored(c') && Stored(c')[key] == codec.deserialize(Stored(c)[key], text)
    ensures KindPreserving(codec) ==> KindOf(Stored(c')[key]) == KindOf(Stored(c)[key])
  {
    WithStored(c, key, codec.deserialize(Stored(c)[key], text))
  }

  /** With a codec whose encoding reads back every text it parsed,
      `serialize(key)` after `set_deserialize(key, text)` gives `text`
      back, and the key is still held. */
  lemma SetThenSerialize(c: Config, key: string, text: string, codec: Codec)
    requires Has(c, key)
    requires forall o, t :: codec.serialize(codec.deserialize(o, t)) == t
    ensures Has(SetDeserialize(c, key, text, codec), key)
    ensures Serialize(SetDeserialize(c, key, text, codec), key, codec) == text
  {
  }

  /** The view `dynamic_cast<ConfigOptionFloat*>` gives of an option: the
      value of a plain float; null for every other kind, float-or-percent
      included, and for a missing option. */
  function FloatView(c: Config, key: string): (r: Option<real>)
    ensures r.Some? <==> key in Stored(c) && Stored(c)[key].FloatOpt?
    ensures r.Some? ==> r.value == Stored(c)[key].value
  {
    if key !in Stored(c) then None
    else
      match Stored(c)[key]
      case FloatOpt(v) => Some(v)
      case _ => None
  }

  /** `percent` per cent of `base`. */
  function PercentOf(base: real, percent: real): real {
    base * percent / 100.0
  }

  /** `get_abs_value(key)` for a float-or-percent option: its value, or,
      when it is a percentage, that percentage of its `ratio_over` option. */
  function GetAbsValue(c: Config, key: string): (r: Result<real>)
    requires key in c.defs && c.defs[key].kind == CoFloatOrPercent
    requires key in Stored(c) && Stored(c)[key].FloatOrPercentOpt?
    ensures !Stored(c)[key].percent ==> r == Ok(Stored(c)[key].value)
    ensures Stored(c)[key].percent ==>
      var base := c.defs[key].ratioOver;
      && (r.Err? <==> FloatView(c, base).None?)
      && (r.Err? ==> r.message == RatioOverMissing)
      && (r.Ok? ==> r.value == PercentOf(Stored(c)[base].value, Stored(c)[key].value))
  {
    var opt := Stored(c)[key];
    if !opt.percent then Ok(opt.value)
    else
      var base := FloatView(c, c.defs[key].ratioOver);
      if base.None? then Err(RatioOverMissing) else Ok(PercentOf(base.value, opt.value))
  }

  /** The absolute value reads only the option itself and its base. */
  lemma AbsValueReadsOnlyBase(c: Config, c': Config, key: string)
    requires key in c.defs && c.defs[key].kind == CoFloatOrPercent
    requires key in Stored(c) && Stored(c)[key].FloatOrPercentOpt?
    requires c'.defs == c.defs && key in Stored(c') && Stored(c')[key] == Stored(c)[key]
    requires var base := c.defs[key].ratioOver;
      (base in Stored(c) <==> base in Stored(c')) && (base in Stored(c) ==> Stored(c')[base] == Stored(c)[base])
    ensures GetAbsValue(c', key) == GetAbsValue(c, key)
  {

  }

  // ---------------------------------------------------------------------
  // apply(other, ignore_nonexistent)

  /** The result of `apply`: the configuration after the loop ran to its
      end, or the configuration at the moment an exception left it. */
  datatype Applied = Done(config: Config) | Thrown(config: Config, message: string)

  /** `option(key, true)` returns an option. */
  predicate Obtainable(c: Config, key: string) {
    key in Stored(c) || (c.Dynamic? && !DefOf(c.defs, key).kind.Unhandled?)
  }

  /** The option `option(key, true)` returns, before anything is written to it. */
  function Obtained(c: Config, key: string): ConfigOption
    requires Obtainable(c, key)
  {
    if key in Stored(c) then Stored(c)[key] else NewOption(DefOf(c.defs, key)).value
  }

  /** Applying `key` throws: the option cannot be created, or it is absent
      and absent options are not to be ignored. */
  predicate Fails(c: Config, key: string, ignore: bool) {
    !Obtainable(c, key) && (c.Dynamic? || !ignore)
  }

  /** What `apply` writes at `key`: the other configuration's value, sent through its text form. */
  function Transferred(c: Config, other: Config, key: string, codec: Codec): ConfigOption
    requires Obtainable(c, key) && key in Stored(other)
  {
    codec.deserialize(Obtained(c, key), codec.serialize(Stored(other)[key]))
  }

  /** `c'` is `c` with the keys in `done` applied from `other` and everything else untouched. */
  ghost predicate AppliedOnly(c: Config, c': Config, other: Config, done: seq<string>, codec: Codec)
    requires forall k :: k in done ==> k in Stored(other)
  {
    && c'.defs == c.defs && c'.Dynamic? == c.Dynamic?
    && (forall k :: k in done && Obtainable(c, k) ==>
          k in Stored(c') && Stored(c')[k] == Transferred(c, other, k, codec))
    && (forall k :: !(k in done && Obtainable(c, k)) ==>
          (k in Stored(c') <==> k in Stored(c)) && (k in Stored(c) ==> Stored(c')[k] == Stored(c)[k]))
  }

  predicate Distinct(ks: seq<string>) {
    forall i, j :: 0 <= i < j < |ks| ==> ks[i] != ks[j]
  }

  /** The loop of `apply` over the keys still to visit. */
  function ApplyKeys(c: Config, other: Config, ks: seq<string>, ignore: bool, codec: Codec): Applied
    requires forall k :: k in ks ==> k in Stored(other)
    decreases |ks|
  {
    if |ks| == 0 then Done(c)
    else
      match GetOption(c, ks[0], true)
      case Err(msg) => Thrown(c, msg)
      case Ok(Lookup(None, c1)) =>
        if !ignore then Thrown(c1, NonExistent)
        else ApplyKeys(c1, other, ks[1..], ignore, codec)
      case Ok(Lookup(Some(mine), c1)) =>
        // `other.option(key)` finds the option: the key came from `other.keys()`
        var theirs := Stored(other)[ks[0]];
        ApplyKeys(WithStored(c1, ks[0], codec.deserialize(mine, codec.serialize(theirs))), other, ks[1..], ignore, codec)
  }

  /** One step of the loop changes only the key it visits, so what later
      steps see for their own keys is what the loop started with. */
  lemma StepKeepsOthers(c: Config, c1: Config, key: string, k: string, ignore: bool)
    requires SameExcept(c, c1, key) && k != key
    ensures Obtainable(c1, k) <==> Obtainable(c, k)
    ensures Fails(c1, k, ignore) <==> Fails(c, k, ignore)
    ensures Obtainable(c, k) ==> Obtained(c1, k) == Obtained(c, k)
  {
  }

  lemma AppliedOneSameExcept(c: Config, c1: Config, other: Config, key: string, codec: Codec)
    requires key in Stored(other)
    requires AppliedOnly(c, c1, other, [key], codec)
    ensures SameExcept(c, c1, key)
  {

  }

  /** Visiting `key` and then the keys of `done` applies `[key] + done`. */
  lemma AppliedCompose(c: Config, c1: Config, c': Config, other: Config, key: string, done: seq<string>, codec: Codec)
    requires key in Stored(other) && (forall k :: k in done ==> k in Stored(other))
    requires key !in done
    requires AppliedOnly(c, c1, other, [key], codec)
    requires AppliedOnly(c1, c', other, done, codec)
    ensures AppliedOnly(c, c', other, [key] + done, codec)
  {

  }

  /** The state one visit of `key` leaves behind, or nothing when the visit throws. */
  function Step(c: Config, other: Config, key: string, ignore: bool, codec: Codec): Option<Config>
    requires key in Stored(other)
  {
    match GetOption(c, key, true)
    case Err(_) => None
    case Ok(Lookup(None, c1)) => if !ignore then None else Some(c1)
    case Ok(Lookup(Some(mine), c1)) =>
      Some(WithStored(c1, key, codec.deserialize(mine, codec.serialize(Stored(other)[key]))))
  }

  lemma StepEffect(c: Config, other: Config, key: string, ignore: bool, codec: Codec)
    requires key in Stored(other)
    ensures Step(c, other, key, ignore, codec).None? <==> Fails(c, key, ignore)
    ensures Step(c, other, key, ignore, codec).Some? ==>
      AppliedOnly(c, Step(c, other, key, ignore, codec).value, other, [key], codec)
  {
  }

  lemma ApplyKeysUnfold(c: Config, other: Config, ks: seq<string>, ignore: bool, codec: Codec)
    requires forall k :: k in ks ==> k in Stored(other)
    requires |ks| > 0
    ensures var step := Step(c, other, ks[0], ignore, codec);
      && (step.None? ==>
            ApplyKeys(c, other, ks, ignore, codec) == Thrown(c, if c.Dynamic? then UnknownType else NonExistent))
      && (step.Some? ==> ApplyKeys(c, other, ks, ignore, codec) == ApplyKeys(step.value, other, ks[1..], ignore, codec))
  {
  }

  lemma DistinctTail(ks: seq<string>)
    requires |ks| > 0 && Distinct(ks)
    ensures Distinct(ks[1..]) && ks[0] !in ks[1..]
  {
  }

  /** A loop that runs to its end met no failing key and applied every key it visited. */
  lemma {:induction false} ApplyKeysDone(c: Config, other: Config, ks: seq<string>, ignore: bool, codec: Codec)
    requires forall k :: k in ks ==> k in Stored(other)
    requires Distinct(ks)
    requires ApplyKeys(c, other, ks, ignore, codec).Done?
    ensures forall k :: k in ks ==> !Fails(c, k, ignore)
    ensures AppliedOnly(c, ApplyKeys(c, other, ks, ignore, codec).config, other, ks, codec)
    decreases |ks|
  {
    if |ks| == 0 {
      return;
    }
    var res := ApplyKeys(c, other, ks, ignore, codec);
    var key, rest := ks[0], ks[1..];
    DistinctTail(ks);
    StepEffect(c, other, key, ignore, codec);
    ApplyKeysUnfold(c, other, ks, ignore, codec);
    var c1 := Step(c, other, key, ignore, codec).value;
    AppliedOneSameExcept(c, c1, other, key, codec);
    ApplyKeysDone(c1, other, rest, ignore, codec);
    forall k | k in ks
      ensures !Fails(c, k, ignore)
    {
      if k != key {
        StepKeepsOthers(c, c1, key, k, ignore);
      }
    }
    AppliedCompose(c, c1, res.config, other, key, rest, codec);
    assert [key] + rest == ks;
  }

  /** A loop that throws did so at the first failing key, with the keys before it applied. */
  lemma {:induction false} ApplyKeysThrownAt(c: Config, other: Config, ks: seq<string>, ignore: bool, codec: Codec)
    returns (i: nat)
    requires forall k :: k in ks ==> k in Stored(other)
    requires Distinct(ks)
    requires ApplyKeys(c, other, ks, ignore, codec).Thrown?
    ensures i < |ks| && Fails(c, ks[i], ignore)
    ensures forall j :: 0 <= j < i ==> !Fails(c, ks[j], ignore)
    ensures ApplyKeys(c, other, ks, ignore, codec).message == (if c.Dynamic? then UnknownType else NonExistent)
    ensures AppliedOnly(c, ApplyKeys(c, other, ks, ignore, codec).config, other, ks[..i], codec)
    decreases |ks|
  {
    var res := ApplyKeys(c, other, ks, ignore, codec);
    var key, rest := ks[0], ks[1..];
    DistinctTail(ks);
    StepEffect(c, other, key, ignore, codec);
    ApplyKeysUnfold(c, other, ks, ignore, codec);
    var step := Step(c, other, key, ignore, codec);
    if step.None? {
      assert ks[..0] == [];
      return 0;
    }
    var c1 := step.value;
    AppliedOneSameExcept(c, c1, other, key, codec);
    var i' := ApplyKeysThrownAt(c1, other, rest, ignore, codec);
    i := i' + 1;
    ThrownShift(c, c1, ks, i', ignore);
    ConsPrefix(ks, i');
    AppliedCompose(c, c1, res.config, other, key, rest[..i'], codec);
  }

  /** Where the loop resumes after a successful first visit, a key fails
      or passes exactly as it would have at the start, so the first
      failing index of the tail is one less than that of the whole list. */
  lemma ThrownShift(c: Config, c1: Config, ks: seq<string>, i': nat, ignore: bool)
    requires 0 < |ks| && ks[0] !in ks[1..] && i' < |ks| - 1
    requires SameExcept(c, c1, ks[0]) && !Fails(c, ks[0], ignore)
    requires Fails(c1, ks[1..][i'], ignore)
    requires forall j :: 0 <= j < i' ==> !Fails(c1, ks[1..][j], ignore)
    ensures Fails(c, ks[i' + 1], ignore)
    ensures forall j :: 0 <= j < i' + 1 ==> !Fails(c, ks[j], ignore)
  {
    StepKeepsOthers(c, c1, ks[0], ks[i' + 1], ignore);
    forall j | 0 < j < i' + 1
      ensures !Fails(c, ks[j], ignore)
    {
      assert ks[j] == ks[1..][j - 1];
      StepKeepsOthers(c, c1, ks[0], ks[j], ignore);
    }
  }

  lemma ConsPrefix(ks: seq<string>, i': nat)
    requires i' < |ks| - 1
    ensures ks[..i' + 1] == [ks[0]] + ks[1..][..i']
  {
  }

  lemma ApplyKeysThrown(c: Config, other: Config, ks: seq<string>, ignore: bool, codec: Codec)
    requires forall k :: k in ks ==> k in Stored(other)
    requires Distinct(ks)
    requires ApplyKeys(c, other, ks, ignore, codec).Thrown?
    ensures ApplyKeys(c, other, ks, ignore, codec).message == (if c.Dynamic? then UnknownType else NonExistent)
    ensures exists i ::
      && 0 <= i < |ks| && Fails(c, ks[i], ignore)
      && (forall j :: 0 <= j < i ==> !Fails(c, ks[j], ignore))
      && AppliedOnly(c, ApplyKeys(c, other, ks, ignore, codec).config, other, ks[..i], codec)
  {
    var i := ApplyKeysThrownAt(c, other, ks, ignore, codec);
  }

  lemma SortedDistinct(ks: seq<string>)
    requires StrictlySorted(ks)
    ensures Distinct(ks)
  {
    forall i, j | 0 <= i < j < |ks|
      ensures ks[i] != ks[j]
    {
      if ks[i] == ks[j] {
        LessIrreflexive(ks[i]);
      }
    }
  }

  /** `apply(other, ignore_nonexistent)`: every key `other` lists is written
      with `other`'s value sent through text; keys `other` does not list are
      untouched. A key that cannot be obtained throws, unless it is merely
      absent from a static configuration and `ignore` is set, in which case
      it is skipped. An exception leaves the keys visited before it applied. */
  function Apply(c: Config, other: Config, ignore: bool, codec: Codec): (res: Applied)
    ensures res.Done? <==> forall k :: k in Keys(other) ==> !Fails(c, k, ignore)
    ensures res.Done? ==> AppliedOnly(c, res.config, other, Keys(other), codec)
    ensures res.Thrown? ==> res.message == (if c.Dynamic? then UnknownType else NonExistent)
    ensures res.Thrown? ==>
      exists i ::
        && 0 <= i < |Keys(other)| && Fails(c, Keys(other)[i], ignore)
        && (forall j :: 0 <= j < i ==> !Fails(c, Keys(other)[j], ignore))
        && AppliedOnly(c, res.config, other, Keys(other)[..i], codec)
  {
    var ks := Keys(other);
    SortedDistinct(ks);
    var res := ApplyKeys(c, other, ks, ignore, codec);
    if res.Done? then
      ApplyKeysDone(c, other, ks, ignore, codec);
      res
    else
      ApplyKeysThrown(c, other, ks, ignore, codec);
      res
  }

  /** Applying a configuration holding a single option to one that already
      holds it is `set_deserialize` with the other's `serialize`. */
  lemma ApplySingleIsSetDeserialize(c: Config, other: Config, key: string, ignore: bool, codec: Codec)
    requires other.Dynamic? && other.options.Keys == {key}
    requires Has(c, key)
    ensures Apply(c, other, ignore, codec) == Done(SetDeserialize(c, key, Serialize(other, key, codec), codec))
  {

  }
}

=== FILE: decimal.dfy ===
/** Unsigned decimal numerals as ASCII byte strings, the way `std::to_string`
    and `operator<<` print a `size_t`, together with a parser that reads
    them back. */
module Decimal {
  import opened Wrappers

  const Zero: int := 48   // ASCII '0'

  predicate IsDigit(b: int) {
    Zero <= b <= Zero + 9
  }

  predicate AllDigits(s: seq<int>) {
    forall i :: 0 <= i < |s| ==> IsDigit(s[i])
  }

  /** The shortest decimal representation of `n`: no sign, no leading zeros. */
  function Dec(n: nat): (s: seq<int>)
    ensures 1 <= |s|
    ensures AllDigits(s)
    ensures |s| > 1 ==> s[0] != Zero
    decreases n
  {
    if n < 10 then [Zero + n] else Dec(n / 10) + [Zero + n % 10]
  }

  /** The number a digit string denotes, most significant digit first. */
  function DigitsValue(s: seq<int>): nat
    requires AllDigits(s)
  {
    if |s| == 0 then 0 else DigitsValue(s[..|s| - 1]) * 10 + (s[|s| - 1] - Zero)
  }

  /** Length of the longest prefix of `s` made of digits. */
  function DigitSpan(s: seq<int>): (k: nat)
    ensures k <= |s|
    ensures AllDigits(s[..k])
    ensures k < |s| ==> !IsDigit(s[k])
  {
    if |s| == 0 || !IsDigit(s[0]) then 0
    else
      var k := 1 + DigitSpan(s[1..]);
      assert s[..k] == [s[0]] + s[1..][..k - 1];
      k
  }

  /** Reads one unsigned decimal at the front of `s`; returns its value and what follows it. */
  function ParseNat(s: seq<int>): (r: Option<(nat, seq<int>)>)
    ensures r.None? <==> (|s| == 0 || !IsDigit(s[0]))
    ensures r.Some? ==> |r.value.1| < |s| && r.value.1 == s[|s| - |r.value.1|..]
  {
    var k := DigitSpan(s);
    if k == 0 then None else Some((DigitsValue(s[..k]), s[k..]))
  }

  lemma {:induction false} DecValue(n: nat)
    ensures DigitsValue(Dec(n)) == n
    decreases n
  {
    if n >= 10 {
      var s := Dec(n);
      assert s[..|s| - 1] == Dec(n / 10);
      DecValue(n / 10);
    }
  }

  lemma {:induction false} DigitSpanOfDigitsThen(d: seq<int>, rest: seq<int>)
    requires AllDigits(d)
    requires |rest| > 0 && !IsDigit(rest[0])
    ensures DigitSpan(d + rest) == |d|
    decreases |d|
  {
    if |d| > 0 {
      assert (d + rest)[1..] == d[1..] + rest;
      DigitSpanOfDigitsThen(d[1..], rest);
    } else {
      assert d + rest == rest;
    }
  }

  /** Printing then parsing gives back the number, provided a non-digit
      terminates the numeral — the round trip a P5 header relies on. */
  lemma ParseDec(n: nat, rest: seq<int>)
    requires |rest| > 0 && !IsDigit(rest[0])
    ensures ParseNat(Dec(n) + rest) == Some((n, rest))
  {
    var s := Dec(n) + rest;
    DigitSpanOfDigitsThen(Dec(n), rest);
    assert s[..|Dec(n)|] == Dec(n);
    assert s[|Dec(n)|..] == rest;
    DecValue(n);
  }
}

=== FILE: lex_order.dfy ===
/** The order `std::map<std::string, …>` keeps its keys in: lexicographic
    comparison character by character, a proper prefix coming first. Key
    lists are produced by walking a map in this order. */
module LexOrder {

  predicate Less(a: string, b: string)
    decreases |a|
  {
    if |a| == 0 then |b| > 0
    else if |b| == 0 then false
    else if a[0] != b[0] then a[0] < b[0]
    else Less(a[1..], b[1..])
  }

  lemma {:induction false} LessIrreflexive(a: string)
    ensures !Less(a, a)
    decreases |a|
  {
    if |a| > 0 {
      LessIrreflexive(a[1..]);
    }
  }

  lemma {:induction false} LessTransitive(a: string, b: string, c: string)
    requires Less(a, b) && Less(b, c)
    ensures Less(a, c)
    decreases |a|
  {
    if |a| > 0 && a[0] == b[0] && b[0] == c[0] {
      LessTransitive(a[1..], b[1..], c[1..]);
    }
  }

  lemma {:induction false} LessTotal(a: string, b: string)
    ensures a == b || Less(a, b) || Less(b, a)
    decreases |a|
  {
    if |a| > 0 && |b| > 0 && a[0] == b[0] {
      LessTotal(a[1..], b[1..]);
      if a[1..] == b[1..] {
        assert a == [a[0]] + a[1..] && b == [b[0]] + b[1..];
      }
    }
  }

  lemma LessAsymmetric(a: string, b: string)
    requires Less(a, b)
    ensures !Less(b, a)
  {

  }

  predicate StrictlySorted(s: seq<string>) {
    forall i, j :: 0 <= i < j < |s| ==> Less(s[i], s[j])
  }

  predicate IsLeast(m: string, keys: set<string>) {
    m in keys && forall k :: k in keys && k != m ==> Less(m, k)
  }

  lemma {:induction false} LeastExists(keys: set<string>)
    requires keys != {}
    ensures exists m :: IsLeast(m, keys)
    decreases |keys|
  {
    var k :| k in keys;
    if keys == {k} {
      assert IsLeast(k, keys);
    } else {
      LeastExists(keys - {k});
      var m :| IsLeast(m, keys - {k});
      LessTotal(m, k);
      if Less(m, k) {
        assert IsLeast(m, keys);
      } else {
        forall x | x in keys && x != k
          ensures Less(k, x)
        {
          if x != m {
            LessTransitive(k, m, x);
          }
        }
        assert IsLeast(k, keys);
      }
    }
  }

  lemma LeastUnique(keys: set<string>)
    ensures forall m1, m2 :: IsLeast(m1, keys) && IsLeast(m2, keys) ==> m1 == m2
  {
    forall m1, m2 | IsLeast(m1, keys) && IsLeast(m2, keys)
      ensures m1 == m2
    {
      if m1 != m2 {
        LessAsymmetric(m1, m2);
      }
    }
  }

  /** The keys of a set in ascending order, each once. */
  function SortedKeys(keys: set<string>): (r: seq<string>)
    ensures |r| == |keys|
    ensures forall k :: k in r <==> k in keys
    ensures StrictlySorted(r)
    decreases |keys|
  {
    if keys == {} then []
    else
      LeastExists(keys);
      LeastUnique(keys);
      var m :| IsLeast(m, keys);
      var rest := SortedKeys(keys - {m});
      assert forall j :: 0 <= j < |rest| ==> rest[j] in rest;
      assert forall j :: 0 <= j < |rest| ==> Less(m, rest[j]);
      [m] + rest
  }

  /** The elements of `s` that `keep` selects, in their original order. */
  function Filter(s: seq<string>, keep: set<string>): (r: seq<string>)
    ensures forall k :: k in r <==> k in s && k in keep
    ensures StrictlySorted(s) ==> StrictlySorted(r)
    decreases |s|, 1
  {
    if |s| == 0 then []
    else
      var rest := Filter(s[1..], keep);
      if s[0] in keep then
        FilterAfterHead(s, keep);
        [s[0]] + rest
      else rest
  }

  lemma FilterAfterHead(s: seq<string>, keep: set<string>)
    requires |s| > 0
    ensures StrictlySorted(s) ==> forall j :: 0 <= j < |Filter(s[1..], keep)| ==> Less(s[0], Filter(s[1..], keep)[j])
    decreases |s|, 0
  {
    var rest := Filter(s[1..], keep);
    if StrictlySorted(s) {
      forall j | 0 <= j < |rest|
        ensures Less(s[0], rest[j])
      {
        assert rest[j] in rest;
        var i :| 0 <= i < |s[1..]| && s[1..][i] == rest[j];
        assert s[i + 1] == rest[j];
      }
    }
  }
}

=== FILE: mirror_table.dfy ===
/** The table the raster mirroring check uses to predict which of five
    probe locations turns white once a small box is drawn at one of them:
    0 bottom left, 1 bottom right, 2 centre, 3 top right, 4 top left. A
    row is chosen by `mirror_x * 2 + mirror_y`. */
module MirrorTable {
  import opened SlaRaster
  import opened RasterPath

  const MirrorTab: seq<seq<nat>> := [[0, 1, 2, 3, 4], [4, 3, 2, 1, 0], [1, 0, 2, 4, 3], [3, 4, 2, 0, 1]]

  const NoFlip: nat := 0
  const FlipYRow: nat := 1
  const FlipXRow: nat := 2
  const FlipXYRow: nat := 3

  function RowIndex(mirrorX: bool, mirrorY: bool): (r: nat)
    ensures r < 4
  {
    (if mirrorX then 1 else 0) * 2 + (if mirrorY then 1 else 0)
  }

  /** The location expected to be white when the box was drawn at location `k`. */
  function WhiteIndex(k: nat, mirrorX: bool, mirrorY: bool): (r: nat)
    requires k < 5
    ensures r < 5
  {
    MirrorTab[RowIndex(mirrorX, mirrorY)][k]
  }

  /** Pixel coordinates of location `k` on a raster `w` by `h` pixels
      whose pixel size is the display extent over `w - 1` (and `h - 1`):
      the corners then sit on the first and last pixel and the centre
      half-way between them. */
  function CornerX(k: nat, w: real): real
    requires k < 5
  {
    if k == 0 || k == 4 then 0.0 else if k == 2 then (w - 1.0) / 2.0 else w - 1.0
  }

  function CornerY(k: nat, h: real): real
    requires k < 5
  {
    if k <= 1 then 0.0 else if k == 2 then (h - 1.0) / 2.0 else h - 1.0
  }

  function Dist(a: real, b: real): real {
    if a < b then b - a else a - b
  }

  /** Each row rearranges the five locations: every location appears once. */
  lemma RowsArePermutations()
    ensures forall r :: 0 <= r < 4 ==> |MirrorTab[r]| == 5 && multiset(MirrorTab[r]) == multiset{0, 1, 2, 3, 4}
  {
  }

  /** The centre never moves, each row undoes itself, and mirroring both
      axes is mirroring X after Y (and Y after X). */
  lemma RowAlgebra(k: nat)
    requires k < 5
    ensures MirrorTab[FlipYRow][2] == 2 && MirrorTab[FlipXRow][2] == 2 && MirrorTab[FlipXYRow][2] == 2
    ensures forall r :: 0 <= r < 4 ==> MirrorTab[r][MirrorTab[r][k]] == k
    ensures MirrorTab[FlipXYRow][k] == MirrorTab[FlipXRow][MirrorTab[FlipYRow][k]]
    ensures MirrorTab[FlipXYRow][k] == MirrorTab[FlipYRow][MirrorTab[FlipXRow][k]]
    ensures MirrorTab[NoFlip][k] == k
  {
  }

  /** The table agrees with the raster's own path mirroring up to one
      pixel: a vertex at location `k`, flipped about the raster's extent
      as its transformation says, lands exactly on the table's location
      along each axis that is not mirrored, and exactly one pixel past it
      along each axis that is, because the flip reflects about `w` while
      the locations span `0 .. w - 1`. */
  lemma TableMatchesPathFlips(impl: Impl, k: nat)
    requires k < 5
    ensures var w := impl.resolution.widthPx as real;
      var h := impl.resolution.heightPx as real;
      var j := WhiteIndex(k, impl.trafo.mirrorX, impl.trafo.mirrorY);
      var m := Mirror(impl, [Vertex(MoveTo, CornerX(k, w), CornerY(k, h))]);
      && |m| == 1 && m[0].cmd == MoveTo
      && m[0].x == CornerX(j, w) + (if impl.trafo.mirrorX then 1.0 else 0.0)
      && m[0].y == CornerY(j, h) + (if impl.trafo.mirrorY then 1.0 else 0.0)
  {
  }

  /** On a raster of at least nine pixels each way the table's location
      lies within one pixel of the flipped vertex, and every other
      location is at least three pixels from it along some axis. A probe
      box four pixels wide, reaching two pixels either side of the
      vertex, therefore covers the table's location and no other. */
  lemma TableNamesNearestLocation(impl: Impl, k: nat)
    requires k < 5
    requires impl.resolution.widthPx >= 9 && impl.resolution.heightPx >= 9
    ensures var w := impl.resolution.widthPx as real;
      var h := impl.resolution.heightPx as real;
      var j := WhiteIndex(k, impl.trafo.mirrorX, impl.trafo.mirrorY);
      var m := Mirror(impl, [Vertex(MoveTo, CornerX(k, w), CornerY(k, h))]);
      && Dist(m[0].x, CornerX(j, w)) <= 1.0 && Dist(m[0].y, CornerY(j, h)) <= 1.0
      && forall l :: 0 <= l < 5 && l != j ==>
           Dist(m[0].x, CornerX(l, w)) >= 3.0 || Dist(m[0].y, CornerY(l, h)) >= 3.0
  {
    TableMatchesPathFlips(impl, k);
  }
}

=== FILE: pair_hash.dfy ===
/** The symmetric key under which a pair of pillar indices is recorded so
    that a cross-bridge between two pillars is considered once, whichever
    pillar is visited first: the triangular pairing of (min, max). */
module PillarPairHash {
  import opened Arithmetic

  /** The n-th triangular number 0 + 1 + … + n. */
  function Tri(n: nat): nat {
    if n == 0 then 0 else Tri(n - 1) + n
  }

  lemma {:induction false} TriClosedForm(n: nat)
    ensures 2 * Tri(n) == n * (n + 1)
  {
    if n > 0 {
      TriClosedForm(n - 1);
      assert n * (n + 1) == (n - 1) * n + 2 * n;
    }
  }

  lemma {:induction false} TriMonotone(m: nat, n: nat)
    requires m <= n
    ensures Tri(m) <= Tri(n)
    decreases n - m
  {
    if m < n {
      TriMonotone(m, n - 1);
    }
  }

  function Min(a: nat, b: nat): nat { if a <= b then a else b }
  function Max(a: nat, b: nat): nat { if a <= b then b else a }

  /** `hi * (hi + 1) / 2 + lo` with `lo, hi` the smaller and larger index. */
  function PairHash(i: nat, j: nat): (h: nat)
    ensures h == Tri(Max(i, j)) + Min(i, j)
  {
    var lo, hi := Min(i, j), Max(i, j);
    TriClosedForm(hi);
    hi * (hi + 1) / 2 + lo
  }

  lemma PairHashSymmetric(i: nat, j: nat)
    ensures PairHash(i, j) == PairHash(j, i)
  {
  }

  /** A pair's key lies between the triangular number of its larger index and the next one. */
  lemma PairHashBand(i: nat, j: nat)
    ensures Tri(Max(i, j)) <= PairHash(i, j) < Tri(Max(i, j) + 1)
  {
  }

  /** Equal keys mean the same unordered pair. */
  lemma PairHashInjective(a: nat, b: nat, c: nat, d: nat)
    requires PairHash(a, b) == PairHash(c, d)
    ensures Min(a, b) == Min(c, d) && Max(a, b) == Max(c, d)
    ensures (a == c && b == d) || (a == d && b == c)
  {
    var h1, h2 := Max(a, b), Max(c, d);
    PairHashBand(a, b);
    PairHashBand(c, d);
    if h1 < h2 {
      TriMonotone(h1 + 1, h2);
    } else if h2 < h1 {
      TriMonotone(h2 + 1, h1);
    }
  }

  /** For indices below 1000 the key fits in an unsigned 32-bit integer, so
      the narrowest instantiation the pairing is used with never wraps. */
  lemma PairHashFitsU32(i: nat, j: nat)
    requires i < 1000 && j < 1000
    ensures PairHash(i, j) <= 500499 < 0x1_0000_0000
  {
    var hi := Max(i, j);
    TriClosedForm(hi);
    MulLeMul(hi, 999, hi + 1, 1000);
  }

  /** The uniqueness check run over all pairs of indices below `n`: every
      key is computed both ways round, and a key seen before must belong
      to the same unordered pair. `ok` is false where the check would fail. */
  method CheckPairHash(n: nat) returns (ok: bool)
    ensures ok
  {
    var seen: map<nat, (nat, nat)> := map[];
    var i := 0;
    while i < n
      invariant i <= n
      invariant forall h :: h in seen ==> PairHash(seen[h].0, seen[h].1) == h
    {
      var j := 0;
      while j < n
        invariant j <= n
        invariant forall h :: h in seen ==> PairHash(seen[h].0, seen[h].1) == h
      {
        if j != i {
          var hashIJ := PairHash(i, j);
          var hashJI := PairHash(j, i);
          if hashIJ != hashJI {
            return false;
          }
          if hashIJ in seen {
            var (a, b) := seen[hashIJ];
            PairHashInjective(a, b, i, j);
            if !((a == i && b == j) || (a == j && b == i)) {
              return false;
            }
          } else {
            seen := seen[hashIJ := (i, j)];
          }
        }
        j := j + 1;
      }
      i := i + 1;
    }
    return true;
  }
}

=== FILE: raster.dfy ===
/** The SLA raster as a state machine: a raster is either empty (no
    implementation allocated) or ready, holding its resolution, pixel
    dimensions, output format, transformation, gamma curve and an 8-bit
    grey buffer of exactly width * height pixels stored row by row. */
module SlaRaster {
  import opened Arithmetic

  /** Display resolution in whole pixels. */
  datatype Resolution = Resolution(widthPx: nat, heightPx: nat) {
    function Pixels(): nat { widthPx * heightPx }
  }

  /** Physical size of one pixel in millimetres. */
  datatype PixelDim = PixelDim(wMm: real, hMm: real)

  datatype Format = PNG | RAW

  /** Mirroring flags and the anti-aliasing gamma requested by the caller. */
  datatype Trafo = Trafo(mirrorX: bool, mirrorY: bool, gamma: real)

  /** The coverage-to-intensity curve handed to the rasteriser; its numeric shape is not modelled. */
  datatype GammaFn = PowerCurve(exponent: real) | Threshold(level: real)

  const Black: int := 0

  predicate IsByte(v: int) { 0 <= v <= 255 }

  /** The state of an allocated raster. `trafo` is the transformation
      actually applied when drawing, after the format's correction. */
  datatype Impl = Impl(
    resolution: Resolution,
    pxdim: PixelDim,
    buffer: seq<int>,
    gammaFn: GammaFn,
    trafo: Trafo,
    format: Format)

  datatype Raster = Empty | Ready(impl: Impl)

  /** The buffer invariant of a ready raster: one byte per pixel. */
  predicate Valid(r: Raster) {
    r.Ready? ==>
      && |r.impl.buffer| == r.impl.resolution.Pixels()
      && forall i :: 0 <= i < |r.impl.buffer| ==> IsByte(r.impl.buffer[i])
  }

  predicate AllBlack(buf: seq<int>) {
    forall i :: 0 <= i < |buf| ==> buf[i] == Black
  }

  predicate IsEmpty(r: Raster) { r.Empty? }

  /** Resolution reported by the raster: `{0, 0}` while empty. */
  function ResolutionOf(r: Raster): Resolution {
    if r.Ready? then r.impl.resolution else Resolution(0, 0)
  }

  /** Pixel dimensions reported by the raster: `{0, 0}` while empty. */
  function PixelDimensionsOf(r: Raster): PixelDim {
    if r.Ready? then r.impl.pxdim else PixelDim(0.0, 0.0)
  }

  /** A default-constructed raster, and `reset()` with no arguments: the implementation is dropped. */
  function ResetEmpty(): (r: Raster)
    ensures IsEmpty(r) && Valid(r)
    ensures ResolutionOf(r) == Resolution(0, 0)
    ensures PixelDimensionsOf(r) == PixelDim(0.0, 0.0)
  {
    Empty
  }

  /** `reset(res, pd, fmt, trafo)`: whatever the raster held before is
      discarded and a fresh implementation is built. The PNG format toggles
      the Y mirror once, to make up for that format's top-left origin. */
  function Reset(res: Resolution, pd: PixelDim, fmt: Format, tr: Trafo): (r: Raster)
    ensures !IsEmpty(r) && Valid(r)
    ensures ResolutionOf(r) == res && PixelDimensionsOf(r) == pd
    ensures |r.impl.buffer| == res.widthPx * res.heightPx
    ensures AllBlack(r.impl.buffer)
    ensures r.impl.format == fmt
    ensures r.impl.trafo.mirrorX == tr.mirrorX && r.impl.trafo.gamma == tr.gamma
    ensures r.impl.trafo.mirrorY <==> (tr.mirrorY != (fmt == PNG))
    ensures tr.gamma > 0.0 ==> r.impl.gammaFn == PowerCurve(tr.gamma)
    ensures tr.gamma <= 0.0 ==> r.impl.gammaFn == Threshold(0.5)
  {
    var gammaFn := if tr.gamma > 0.0 then PowerCurve(tr.gamma) else Threshold(0.5);
    var trafo := if fmt == PNG then tr.(mirrorY := !tr.mirrorY) else tr;
    var built := Impl(res, pd, seq(res.Pixels(), _ => 0), gammaFn, trafo, fmt);
    ClearImpl(built)
  }

  function ClearImpl(impl: Impl): (r: Raster)
    ensures r.Ready? && r.impl == impl.(buffer := r.impl.buffer)
    ensures |r.impl.buffer| == |impl.buffer| && AllBlack(r.impl.buffer)
  {
    Ready(impl.(buffer := seq(|impl.buffer|, _ => Black)))
  }

  /** `clear()`: every pixel becomes black; nothing else changes. Calling
      it on an empty raster is a precondition violation in the source. */
  function Clear(r: Raster): (r': Raster)
    requires r.Ready?
    ensures r'.Ready? && Valid(r) ==> Valid(r')
    ensures r'.Ready? && |r'.impl.buffer| == |r.impl.buffer| && AllBlack(r'.impl.buffer)
    ensures r'.impl.resolution == r.impl.resolution && r'.impl.pxdim == r.impl.pxdim
    ensures r'.impl.trafo == r.impl.trafo && r'.impl.format == r.impl.format
    ensures r'.impl.gammaFn == r.impl.gammaFn
  {
    ClearImpl(r.impl)
  }

  /** Row-major offset of pixel (x, y) in a buffer `w` pixels wide. */
  function PixelIndex(x: nat, y: nat, w: nat): nat {
    y * w + x
  }

  /** Pixel (x, y) precedes every pixel of row y + 1. */
  lemma RowBound(x: nat, y: nat, w: nat)
    requires x < w
    ensures PixelIndex(x, y, w) < (y + 1) * w
  {

  }

  lemma PixelIndexBound(x: nat, y: nat, w: nat, h: nat)
    requires x < w && y < h
    ensures PixelIndex(x, y, w) < w * h
  {
    RowBound(x, y, w);
    MulLeMul(y + 1, h, w, w);
  }

  lemma PixelIndexInjective(x1: nat, y1: nat, x2: nat, y2: nat, w: nat)
    requires x1 < w && x2 < w
    requires PixelIndex(x1, y1, w) == PixelIndex(x2, y2, w)
    ensures x1 == x2 && y1 == y2
  {
    if y1 < y2 {
      RowBound(x1, y1, w);
      MulLeMul(y1 + 1, y2, w, w);
    } else if y2 < y1 {
      RowBound(x2, y2, w);
      MulLeMul(y2 + 1, y1, w, w);
    }
  }

  lemma PixelIndexOnto(i: nat, w: nat, h: nat)
    requires i < w * h
    ensures w > 0 && i % w < w && i / w < h && PixelIndex(i % w, i / w, w) == i
  {

  }

  /** Distinct in-range pixels occupy distinct buffer cells, and every cell
      belongs to one pixel: row-major addressing is a bijection. */
  lemma PixelIndexBijective(w: nat, h: nat)
    ensures forall x1: nat, y1: nat, x2: nat, y2: nat ::
      x1 < w && x2 < w && PixelIndex(x1, y1, w) == PixelIndex(x2, y2, w) ==> x1 == x2 && y1 == y2
    ensures forall i: nat :: i < w * h ==> w > 0 && i % w < w && i / w < h && PixelIndex(i % w, i / w, w) == i
  {
    forall x1: nat, y1: nat, x2: nat, y2: nat | x1 < w && x2 < w && PixelIndex(x1, y1, w) == PixelIndex(x2, y2, w)
      ensures x1 == x2 && y1 == y2
    {
      PixelIndexInjective(x1, y1, x2, y2, w);
    }
    forall i: nat | i < w * h
      ensures w > 0 && i % w < w && i / w < h && PixelIndex(i % w, i / w, w) == i
    {
      PixelIndexOnto(i, w, h);
    }
  }

  /** `read_pixel(x, y)`: the grey value of column x, row y. The source does
      not check bounds, so the model requires them. */
  function ReadPixel(r: Raster, x: nat, y: nat): (v: int)
    requires Valid(r) && r.Ready?
    requires x < r.impl.resolution.widthPx && y < r.impl.resolution.heightPx
    ensures IsByte(v)
    ensures PixelIndex(x, y, ResolutionOf(r).widthPx) < |r.impl.buffer|
         && v == r.impl.buffer[PixelIndex(x, y, ResolutionOf(r).widthPx)]
  {
    var res := r.impl.resolution;
    PixelIndexBound(x, y, res.widthPx, res.heightPx);
    r.impl.buffer[PixelIndex(x, y, res.widthPx)]
  }

  /** Right after a reset or a clear every pixel reads black. */
  lemma ReadAfterResetIsBlack(res: Resolution, pd: PixelDim, fmt: Format, tr: Trafo, x: nat, y: nat)
    requires x < res.widthPx && y < res.heightPx
    ensures ReadPixel(Reset(res, pd, fmt, tr), x, y) == Black
    ensures ReadPixel(Clear(Reset(res, pd, fmt, tr)), x, y) == Black
  {
    PixelIndexBound(x, y, res.widthPx, res.heightPx);
  }

  /** Clearing twice is clearing once. */
  lemma ClearIdempotent(r: Raster)
    requires r.Ready?
    ensures Clear(Clear(r)) == Clear(r)
  {
  }

  /** Resetting a PNG raster with the transformation it stores undoes the
      format's Y correction: applying the correction twice cancels out,
      which is why callers must not apply it themselves. */
  lemma PngCorrectionAppliedOnce(res: Resolution, pd: PixelDim, tr: Trafo)
    ensures Reset(res, pd, PNG, Reset(res, pd, PNG, tr).impl.trafo).impl.trafo == tr
    ensures Reset(res, pd, RAW, tr).impl.trafo == tr
  {
  }
}

=== FILE: raster_path.dfy ===
/** Turning a polygon with holes into the paths handed to the scanline
    rasteriser: scaled integer points become pixel coordinates, each ring
    is closed back to its first point, and the raster's mirroring is
    applied to the contour and to every hole alike. The rasteriser itself
    (coverage, anti-aliasing) is a foreign library and appears only as a
    function parameter. */
module RasterPath {
  import opened SlaRaster

  /** Millimetres per scaled integer unit. */
  const ScalingFactor: real := 0.000001

  /** A point in scaled integer coordinates. */
  datatype Point = Point(x: int, y: int)

  datatype ExPolygon = ExPolygon(contour: seq<Point>, holes: seq<seq<Point>>)

  datatype Cmd = MoveTo | LineTo

  /** One path vertex in pixel coordinates. */
  datatype Vertex = Vertex(cmd: Cmd, x: real, y: real)

  type Path = seq<Vertex>

  /** The rasteriser: accumulates the coverage of some paths into a buffer. */
  type Renderer = (seq<int>, seq<Path>, GammaFn) -> seq<int>

  predicate Drawable(pd: PixelDim) {
    pd.wMm != 0.0 && pd.hMm != 0.0
  }

  /** Every ring of the polygon has a first point to start the path from. */
  predicate WellFormed(poly: ExPolygon) {
    |poly.contour| > 0 && forall i :: 0 <= i < |poly.holes| ==> |poly.holes[i]| > 0
  }

  /** Ring `i` of a polygon: 0 is the contour, i + 1 is hole i. */
  function Ring(poly: ExPolygon, i: nat): seq<Point>
    requires i <= |poly.holes|
  {
    if i == 0 then poly.contour else poly.holes[i - 1]
  }

  function PxX(p: Point, pd: PixelDim): real
    requires Drawable(pd)
  {
    p.x as real * (ScalingFactor / pd.wMm)
  }

  function PxY(p: Point, pd: PixelDim): real
    requires Drawable(pd)
  {
    p.y as real * (ScalingFactor / pd.hMm)
  }

  /** The path of one ring: a move to the first point, a line to each
      following point, and a closing line back to the first point. */
  function ToPath(ring: seq<Point>, pd: PixelDim): (path: Path)
    requires |ring| > 0 && Drawable(pd)
    ensures |path| == |ring| + 1
    ensures path[0].cmd == MoveTo
    ensures forall i :: 1 <= i < |path| ==> path[i].cmd == LineTo
    ensures path[|ring|].x == path[0].x && path[|ring|].y == path[0].y
    ensures forall i :: 0 <= i < |ring| ==> path[i].x == PxX(ring[i], pd) && path[i].y == PxY(ring[i], pd)
  {
    seq(|ring| + 1, i requires 0 <= i <= |ring| =>
      var p := if i < |ring| then ring[i] else ring[0];
      Vertex(if i == 0 then MoveTo else LineTo, PxX(p, pd), PxY(p, pd)))
  }

  /** Reflection about the raster's own extent: x becomes width - x. */
  function FlipX(path: Path, width: real): (r: Path)
    ensures |r| == |path|
    ensures forall i :: 0 <= i < |r| ==> r[i] == path[i].(x := width - path[i].x)
  {
    seq(|path|, i requires 0 <= i < |path| => path[i].(x := 0.0 + width - path[i].x))
  }

  /** Reflection about the raster's own extent: y becomes height - y. */
  function FlipY(path: Path, height: real): (r: Path)
    ensures |r| == |path|
    ensures forall i :: 0 <= i < |r| ==> r[i] == path[i].(y := height - path[i].y)
  {
    seq(|path|, i requires 0 <= i < |path| => path[i].(y := 0.0 + height - path[i].y))
  }

  /** The flips the raster's transformation asks for, X first then Y. */
  function Mirror(impl: Impl, path: Path): Path {
    var px := if impl.trafo.mirrorX then FlipX(path, impl.resolution.widthPx as real) else path;
    if impl.trafo.mirrorY then FlipY(px, impl.resolution.heightPx as real) else px
  }

  /** The paths `draw` adds to the rasteriser: the contour first, then the holes in order. */
  function DrawPaths(impl: Impl, poly: ExPolygon): (paths: seq<Path>)
    requires WellFormed(poly) && Drawable(impl.pxdim)
    ensures |paths| == |poly.holes| + 1
  {
    [Mirror(impl, ToPath(poly.contour, impl.pxdim))]
    + seq(|poly.holes|, i requires 0 <= i < |poly.holes| && WellFormed(poly) =>
        Mirror(impl, ToPath(poly.holes[i], impl.pxdim)))
  }

  /** Where a point lands on the raster, defined pointwise: scale to
      pixels, then reflect each axis whose mirror flag is set. */
  function PlaceX(impl: Impl, p: Point): real
    requires Drawable(impl.pxdim)
  {
    if impl.trafo.mirrorX then impl.resolution.widthPx as real - PxX(p, impl.pxdim) else PxX(p, impl.pxdim)
  }

  function PlaceY(impl: Impl, p: Point): real
    requires Drawable(impl.pxdim)
  {
    if impl.trafo.mirrorY then impl.resolution.heightPx as real - PxY(p, impl.pxdim) else PxY(p, impl.pxdim)
  }

  lemma MirrorPath(impl: Impl, ring: seq<Point>)
    requires |ring| > 0 && Drawable(impl.pxdim)
    ensures var path := Mirror(impl, ToPath(ring, impl.pxdim));
      && |path| == |ring| + 1
      && path[0].cmd == MoveTo
      && (forall j :: 1 <= j < |path| ==> path[j].cmd == LineTo)
      && (forall j :: 0 <= j < |ring| ==> path[j].x == PlaceX(impl, ring[j]) && path[j].y == PlaceY(impl, ring[j]))
      && path[|ring|].x == path[0].x && path[|ring|].y == path[0].y
  {
  }

  /** Every ring, the contour and each hole, becomes a closed path of one
      more vertex than it has points, placed by the same transformation. */
  lemma {:induction false} DrawPathsMirrorUniform(impl: Impl, poly: ExPolygon)
    requires WellFormed(poly) && Drawable(impl.pxdim)
    ensures var paths := DrawPaths(impl, poly);
      forall i :: 0 <= i < |paths| ==>
        && |paths[i]| == |Ring(poly, i)| + 1
        && paths[i][0].cmd == MoveTo
        && (forall j :: 1 <= j < |paths[i]| ==> paths[i][j].cmd == LineTo)
        && (forall j :: 0 <= j < |Ring(poly, i)| ==>
              paths[i][j].x == PlaceX(impl, Ring(poly, i)[j]) && paths[i][j].y == PlaceY(impl, Ring(poly, i)[j]))
        && paths[i][|Ring(poly, i)|].x == paths[i][0].x
        && paths[i][|Ring(poly, i)|].y == paths[i][0].y
  {
    var paths := DrawPaths(impl, poly);
    forall i | 0 <= i < |paths|
      ensures paths[i] == Mirror(impl, ToPath(Ring(poly, i), impl.pxdim))
    {
    }
    forall i | 0 <= i < |paths|
      ensures |paths[i]| == |Ring(poly, i)| + 1
      ensures paths[i][0].cmd == MoveTo
      ensures forall j :: 1 <= j < |paths[i]| ==> paths[i][j].cmd == LineTo
      ensures forall j :: 0 <= j < |Ring(poly, i)| ==>
              paths[i][j].x == PlaceX(impl, Ring(poly, i)[j]) && paths[i][j].y == PlaceY(impl, Ring(poly, i)[j])
      ensures paths[i][|Ring(poly, i)|].x == paths[i][0].x && paths[i][|Ring(poly, i)|].y == paths[i][0].y
    {
      MirrorPath(impl, Ring(poly, i));
    }
  }

  /** Mirroring the same axis twice restores the path. */
  lemma FlipInvolutive(path: Path, width: real, height: real)
    ensures FlipX(FlipX(path, width), width) == path
    ensures FlipY(FlipY(path, height), height) == path
    ensures FlipX(FlipY(path, height), width) == FlipY(FlipX(path, width), height)
  {
  }

  /** The renderer keeps the buffer's length and writes only grey bytes. */
  ghost predicate KeepsBuffer(render: Renderer) {
    forall buf, paths, g ::
      |render(buf, paths, g)| == |buf|
      && ((forall i :: 0 <= i < |buf| ==> IsByte(buf[i])) ==>
          forall i :: 0 <= i < |render(buf, paths, g)| ==> IsByte(render(buf, paths, g)[i]))
  }

  /** `draw(poly)`: the mirrored, closed paths of every ring go to the
      rasteriser together with the raster's gamma curve; everything but the
      buffer stays as it was. Drawing on an empty raster is a precondition
      violation in the source. */
  function Draw(r: Raster, poly: ExPolygon, render: Renderer): (r': Raster)
    requires r.Ready? && WellFormed(poly) && Drawable(r.impl.pxdim)
    ensures r'.Ready?
    ensures r'.impl.resolution == r.impl.resolution && r'.impl.pxdim == r.impl.pxdim
    ensures r'.impl.trafo == r.impl.trafo && r'.impl.format == r.impl.format
    ensures r'.impl.gammaFn == r.impl.gammaFn
    ensures r'.impl.buffer == render(r.impl.buffer, DrawPaths(r.impl, poly), r.impl.gammaFn)
    ensures Valid(r) && KeepsBuffer(render) ==> Valid(r')
  {
    var paths := DrawPaths(r.impl, poly);
    Ready(r.impl.(buffer := render(r.impl.buffer, paths, r.impl.gammaFn)))
  }
}

=== FILE: raster_save.dfy ===
/** Serialising a raster. RAW output is a binary Netpbm greymap: the ASCII
    header `P5 <width> <height> 255 ` followed by the buffer, one byte per
    pixel. PNG output comes from a foreign encoder, modelled as a function
    that may produce no data. */
module RasterSave {
  import opened Wrappers
  import opened Decimal
  import opened SlaRaster

  /** The PNG encoder: pixels, width, height in; encoded bytes or nothing out. */
  type PngEncoder = (seq<int>, nat, nat) -> Option<seq<int>>

  /** An output stream: whether it is still good, and what it holds so far. */
  datatype Stream = Stream(good: bool, bytes: seq<int>)

  const Space: int := 32   // ASCII ' '

  /** ASCII codes of a string. */
  function Ascii(s: string): (r: seq<int>)
    ensures |r| == |s|
    ensures forall i :: 0 <= i < |s| ==> r[i] == s[i] as int
  {
    seq(|s|, i requires 0 <= i < |s| => s[i] as int)
  }

  /** The RAW header: the magic `P5`, the width and the height in decimal,
      the maximum grey value 255, each followed by one space. */
  function PgmHeader(res: Resolution): (h: seq<int>)
    ensures |h| == 3 + |Dec(res.widthPx)| + 1 + |Dec(res.heightPx)| + 1 + 4
  {
    Ascii("P5 ") + Dec(res.widthPx) + Ascii(" ") + Dec(res.heightPx) + Ascii(" ") + Ascii("255 ")
  }

  /** The bytes `save(fmt)` returns. RAW: header then buffer. PNG: whatever
      the encoder produced, or nothing when it failed. */
  function SaveBytes(r: Raster, fmt: Format, encode: PngEncoder): (out: seq<int>)
    requires r.Ready?
    ensures fmt == RAW ==>
      && |out| == |PgmHeader(r.impl.resolution)| + |r.impl.buffer|
      && out[..|PgmHeader(r.impl.resolution)|] == PgmHeader(r.impl.resolution)
      && out[|PgmHeader(r.impl.resolution)|..] == r.impl.buffer
    ensures fmt == PNG && encode(r.impl.buffer, r.impl.resolution.widthPx, r.impl.resolution.heightPx).None? ==> out == []
    ensures fmt == PNG && encode(r.impl.buffer, r.impl.resolution.widthPx, r.impl.resolution.heightPx).Some? ==>
      out == encode(r.impl.buffer, r.impl.resolution.widthPx, r.impl.resolution.heightPx).value
  {
    match fmt
    case PNG =>
      (match encode(r.impl.buffer, r.impl.resolution.widthPx, r.impl.resolution.heightPx)
       case None => []
       case Some(data) => data)
    case RAW =>
      var header := PgmHeader(r.impl.resolution);
      assert (header + r.impl.buffer)[..|header|] == header;
      header + r.impl.buffer
  }

  /** `save()`: saves in the format the raster was reset with. */
  function SaveDefault(r: Raster, encode: PngEncoder): (out: seq<int>)
    requires r.Ready?
    ensures out == SaveBytes(r, r.impl.format, encode)
    ensures r.impl.format == RAW ==> |out| == |PgmHeader(r.impl.resolution)| + |r.impl.buffer|
    ensures r.impl.format == RAW && Valid(r) ==> ParseRaw(out) == Some((r.impl.resolution, r.impl.buffer))
  {
    if r.impl.format == RAW && Valid(r) then
      RawRoundTrip(r, encode);
      SaveBytes(r, RAW, encode)
    else
      SaveBytes(r, r.impl.format, encode)
  }

  /** `save(stream, fmt)`: a stream that is not good is left alone, a
      failed PNG encoding writes nothing, otherwise the encoding is appended. */
  function SaveToStream(r: Raster, s: Stream, fmt: Format, encode: PngEncoder): (s': Stream)
    requires r.Ready?
    ensures s'.good == s.good
    ensures !s.good ==> s' == s
    ensures |s.bytes| <= |s'.bytes| && s'.bytes[..|s.bytes|] == s.bytes
  {
    if !s.good then s
    else
      match fmt
      case PNG =>
        (match encode(r.impl.buffer, r.impl.resolution.widthPx, r.impl.resolution.heightPx)
         case None => s
         case Some(data) => Stream(true, s.bytes + data))
      case RAW =>
        var written := s.bytes + PgmHeader(r.impl.resolution) + r.impl.buffer;
        assert written[..|s.bytes|] == s.bytes;
        Stream(true, written)
  }

  /** `save(stream)`: saves in the format the raster was reset with. */
  function SaveDefaultToStream(r: Raster, s: Stream, encode: PngEncoder): (s': Stream)
    requires r.Ready?
    ensures !s.good ==> s' == s
    ensures s.good ==> s'.bytes == s.bytes + SaveBytes(r, r.impl.format, encode)
  {
    if s.good then
      StreamAgreesWithBytes(r, s, r.impl.format, encode);
      SaveToStream(r, s, r.impl.format, encode)
    else
      SaveToStream(r, s, r.impl.format, encode)
  }

  /** Both forms of `save` write the same bytes to a good stream. */
  lemma StreamAgreesWithBytes(r: Raster, s: Stream, fmt: Format, encode: PngEncoder)
    requires r.Ready? && s.good
    ensures SaveToStream(r, s, fmt, encode).bytes == s.bytes + SaveBytes(r, fmt, encode)
  {

  }

  /** Reads an exact byte string `lit` at the front of `s`. */
  function Expect(lit: seq<int>, s: seq<int>): (r: Option<seq<int>>)
    ensures r.Some? <==> |lit| <= |s| && s[..|lit|] == lit
    ensures r.Some? ==> r.value == s[|lit|..]
  {
    if |lit| <= |s| && s[..|lit|] == lit then Some(s[|lit|..]) else None
  }

  /** A reader for the RAW format: the P5 header, then exactly width * height pixel bytes. */
  function ParseRaw(bytes: seq<int>): Option<(Resolution, seq<int>)> {
    match Expect(Ascii("P5 "), bytes)
    case None => None
    case Some(s1) =>
      match ParseNat(s1)
      case None => None
      case Some((w, s2)) =>
        match Expect(Ascii(" "), s2)
        case None => None
        case Some(s3) =>
          match ParseNat(s3)
          case None => None
          case Some((h, s4)) =>
            match Expect(Ascii(" 255 "), s4)
            case None => None
            case Some(pixels) =>
              if |pixels| == w * h then Some((Resolution(w, h), pixels)) else None
  }

  lemma ExpectPrefix(lit: seq<int>, rest: seq<int>)
    ensures Expect(lit, lit + rest) == Some(rest)
  {

  }

  /** The layout of a RAW file, grouped the way a reader consumes it. */
  lemma RawLayout(res: Resolution, buf: seq<int>)
    ensures PgmHeader(res) + buf
         == Ascii("P5 ") + (Dec(res.widthPx) + (Ascii(" ") + (Dec(res.heightPx) + (Ascii(" 255 ") + buf))))
  {

  }

  /** A RAW header followed by exactly width * height bytes reads back
      as that resolution and those bytes. */
  lemma {:induction false} ParseHeaderLayout(res: Resolution, buf: seq<int>)
    ensures |buf| == res.widthPx * res.heightPx ==> ParseRaw(PgmHeader(res) + buf) == Some((res, buf))
  {
    var s4 := Ascii(" 255 ") + buf;
    var s3 := Dec(res.heightPx) + s4;
    var s2 := Ascii(" ") + s3;
    var s1 := Dec(res.widthPx) + s2;
    RawLayout(res, buf);
    ExpectPrefix(Ascii("P5 "), s1);
    assert s2[0] == Space;
    ParseDec(res.widthPx, s2);
    ExpectPrefix(Ascii(" "), s3);
    assert s4[0] == Space;
    ParseDec(res.heightPx, s4);
    ExpectPrefix(Ascii(" 255 "), buf);
  }

  /** Saving a valid raster as RAW and reading the header back yields its
      resolution, and the payload is exactly its width * height pixels. */
  lemma RawRoundTrip(r: Raster, encode: PngEncoder)
    requires r.Ready? && Valid(r)
    ensures ParseRaw(SaveBytes(r, RAW, encode)) == Some((r.impl.resolution, r.impl.buffer))
  {
    assert SaveBytes(r, RAW, encode) == PgmHeader(r.impl.resolution) + r.impl.buffer;
    ParseHeaderLayout(r.impl.resolution, r.impl.buffer);
  }
}

=== FILE: tree_integrity.dfy ===
/** The counter part of the support-tree integrity check: limits on how
    many cascading links and bridges a pillar carries, and the minimum
    number of links a tall pillar standing on the ground must have. */
module SupportTreeIntegrity {

  /** Tolerance for "the pillar ends at ground level". */
  const Epsilon: real := 0.0001

  /** What the check reads of a pillar. */
  datatype Pillar = Pillar(endpointZ: real, height: real, links: nat, bridges: nat)

  /** The limits the check compares against. */
  datatype SupportConfig = SupportConfig(
    maxSoloPillarHeightMm: real,
    maxDualPillarHeightMm: real,
    pillarCascadeNeighbors: nat,
    maxBridgesOnPillar: nat)

  function Abs(x: real): real { if x < 0.0 then -x else x }

  predicate OnGround(p: Pillar, ground: real) {
    Abs(p.endpointZ - ground) < Epsilon
  }

  /** No pillar carries more links or bridges than configured. */
  predicate WithinLimits(p: Pillar, cfg: SupportConfig) {
    p.links <= cfg.pillarCascadeNeighbors && p.bridges <= cfg.maxBridgesOnPillar
  }

  /** The link requirement as the check is written: the two-link test sits
      in the `else` of the one-link test, so it only applies to pillars no
      taller than the solo limit. */
  predicate LinksOkAsWritten(p: Pillar, ground: real, cfg: SupportConfig) {
    OnGround(p, ground) ==>
      if p.height > cfg.maxSoloPillarHeightMm then p.links >= 1
      else if p.height > cfg.maxDualPillarHeightMm then p.links >= 2
      else true
  }

  /** The link requirement as intended: above the solo limit at least one
      link, above the dual limit at least two. */
  predicate LinksOk(p: Pillar, ground: real, cfg: SupportConfig) {
    OnGround(p, ground) ==>
      && (p.height > cfg.maxSoloPillarHeightMm ==> p.links >= 1)
      && (p.height > cfg.maxDualPillarHeightMm ==> p.links >= 2)
  }

  /** The pillar loop of the check as written; it stops at the first
      pillar that fails, so `ok` says whether every pillar passes. */
  method CheckPillarsAsWritten(pillars: seq<Pillar>, ground: real, cfg: SupportConfig) returns (ok: bool)
    ensures ok <==> forall i :: 0 <= i < |pillars| ==>
      LinksOkAsWritten(pillars[i], ground, cfg) && WithinLimits(pillars[i], cfg)
  {
    var i := 0;
    while i < |pillars|
      invariant i <= |pillars|
      invariant forall j :: 0 <= j < i ==> LinksOkAsWritten(pillars[j], ground, cfg) && WithinLimits(pillars[j], cfg)
    {
      var p := pillars[i];
      if Abs(p.endpointZ - ground) < Epsilon {
        var h := p.height;
        if h > cfg.maxSoloPillarHeightMm {
          if p.links < 1 { return false; }
        } else if h > cfg.maxDualPillarHeightMm {
          if p.links < 2 { return false; }
        }
      }
      if p.links > cfg.pillarCascadeNeighbors { return false; }
      if p.bridges > cfg.maxBridgesOnPillar { return false; }
      i := i + 1;
    }
    return true;
  }

  /** The pillar loop with the two link tests independent of each other. */
  method CheckPillars(pillars: seq<Pillar>, ground: real, cfg: SupportConfig) returns (ok: bool)
    ensures ok <==> forall i :: 0 <= i < |pillars| ==>
      LinksOk(pillars[i], ground, cfg) && WithinLimits(pillars[i], cfg)
  {
    var i := 0;
    while i < |pillars|
      invariant i <= |pillars|
      invariant forall j :: 0 <= j < i ==> LinksOk(pillars[j], ground, cfg) && WithinLimits(pillars[j], cfg)
    {
      var p := pillars[i];
      if Abs(p.endpointZ - ground) < Epsilon {
        if p.height > cfg.maxSoloPillarHeightMm && p.links < 1 { return false; }
        if p.height > cfg.maxDualPillarHeightMm && p.links < 2 { return false; }
      }
      if p.links > cfg.pillarCascadeNeighbors { return false; }
      if p.bridges > cfg.maxBridgesOnPillar { return false; }
      i := i + 1;
    }
    return true;
  }

  /** Whenever the dual limit is not below the solo limit, the written
      two-link test can never fire: only the one-link test remains. */
  lemma DualTestDeadAsWritten(p: Pillar, ground: real, cfg: SupportConfig)
    requires cfg.maxSoloPillarHeightMm <= cfg.maxDualPillarHeightMm
    ensures LinksOkAsWritten(p, ground, cfg) <==>
      (OnGround(p, ground) && p.height > cfg.maxSoloPillarHeightMm ==> p.links >= 1)
  {
  }

  /** A concrete pillar the written check lets through: on the ground,
      taller than both limits (15 mm and 35 mm), with a single link. */
  lemma AsWrittenAdmitsSingleLinkTallPillar()
    ensures var cfg := SupportConfig(15.0, 35.0, 3, 3);
      var p := Pillar(0.0, 40.0, 1, 0);
      LinksOkAsWritten(p, 0.0, cfg) && WithinLimits(p, cfg) && !LinksOk(p, 0.0, cfg)
  {
  }

  /** The intended requirement is never weaker than the written one. */
  lemma IntendedImpliesAsWritten(p: Pillar, ground: real, cfg: SupportConfig)
    ensures LinksOk(p, ground, cfg) ==> LinksOkAsWritten(p, ground, cfg)
  {
  }
}

=== FILE: wrappers.dfy ===
/** Failure-carrying result types shared by the raster and configuration models. */
module Wrappers {

  /** A value that may be absent: a null pointer or an encoder that produced nothing. */
  datatype Option<+T> = None | Some(value: T)

  /** The outcome of a call that can throw: the value, or the message the source throws. */
  datatype Result<+T> = Ok(value: T) | Err(message: string)
}
